=== FILE: README.md ===
# Multicast-to-unicast relay: subscriber registry and control protocol

This project is a Dafny model of the core of `multi-uni.c`, a UDP relay. The
relay listens to an IPv6 multicast group and re-sends every datagram it
receives to each registered unicast subscriber. Subscribers register and
deregister by sending `JOIN:<port>` or `LEAVE:<port>` to a control port.

The model has four parts, one module each:

- `Wire` (wire.dfy): octets, `uint16_t`, and `htons`/`ntohs` as a byte swap
  (the host is taken to be little-endian). It also holds the C conversion
  `(uint16_t)v`, what `recvfrom` stores into the 1024-byte buffer, the C string
  in a NUL-terminated buffer, the fields of `sockaddr_in6` the relay uses, and
  the `sendto` calls as records.
- `Request` (request.dfy): decoding of a control datagram. `strtok(·, ":")` is
  modelled call by call and proved equal to a split-on-`:` reference that drops
  empty fields. `atoi` is modelled as leading white space, an optional sign and
  a run of digits. The verb is compared with `"JOIN"` and `"LEAVE"`. `Decode`
  returns a `Command`: `Join(port) | Leave(port) | Unknown | Malformed`.
- `Registry` (registry.dfy): the array `client_addresses[500]` and
  `num_clients`, as the class `ClientTable`. Its methods `Add`, `Remove` and
  `Forward` work on the array in place. Each is proved against a function on
  the sequence of live entries (`AfterAdd`, `AfterRemove`, `Fanout`,
  `RetargetAll`), and the lemmas are stated about those functions.
- `Relay` (relay.dfy): `handle_join_leave_request` as the method
  `HandleRequest`, specified by the function `Respond`. `Respond` applies
  `Dispatch` to the decoded request. The body of the `select` loop is the
  method `Step`, specified by `Tick`. The `send_response` call is the
  `Replied(dest, text)` record; its length is the whole text, as `strlen`
  gives.

Choices that follow the code:

- The reply to an unrecognised verb is `"Uknown request\n"`, misspelled as in
  multi-uni.c:100.
- The stored port is `ntohs((uint16_t)atoi(token))`. `remove_client` compares
  it with the same conversion of the LEAVE token, so JOIN and LEAVE agree.
  `forward_packet` sets `sin6_port = htons(port)`, so the raw `sin6_port`
  field equals the number the client wrote, reduced modulo 2^16
  (`JoinThenForward`). The client's
  number is therefore taken in network byte order: on a little-endian host,
  `JOIN:5000` delivers to UDP port 34835.
- `remove_client` compares the addresses' `inet_ntop` texts. For 16-octet
  IPv6 addresses this is the same as comparing the octets, which the model
  does. `sin6_port` and `sin6_scope_id` take no part in the match.
- Duplicate JOINs are not detected, so a second JOIN adds a second entry
  (`DuplicateAdd`).
- A LEAVE removes the first entry with the same address and port. If that
  entry is an older one differing from the new one in the fields the match
  ignores, the registry gets back its old size but not exactly its old
  entries (`AddThenRemove`). It gets back exactly its old contents when no
  earlier entry matched (`AddThenRemoveRestores`).
- After `recvfrom` has filled all 1024 bytes of the request buffer, the
  terminator store `buffer[recv_len]` at multi-uni.c:80 writes one byte past
  the buffer. In C this is undefined behaviour. The model makes it an explicit
  outcome, `Overrun`, with no reply and no registry change, and does not
  restrict the input.

## Model

| member | source | states |
|---|---|---|
| `Wire.Swap16` | multi-uni.c:87 | `ntohs`/`htons` exchange the high and low octets of a 16-bit value |
| `Wire.SwapInvolution` | multi-uni.c:61 | swapping twice restores the value, so `htons(ntohs(p)) == p` |
| `Wire.Cast16` | multi-uni.c:87 | `(uint16_t)v` is congruent to `v` modulo 2^16 and is `v` itself when `v` already fits |
| `Wire.Receive` | multi-uni.c:77 | `recvfrom` into the buffer keeps at most 1024 bytes, a prefix of the datagram, and all of it when it is shorter |
| `Wire.CString` | multi-uni.c:80 | string functions see the buffer up to its first NUL: a NUL-free prefix followed by NUL or the end |
| `Wire.CStringWithoutNul` | multi-uni.c:80-82 | a buffer without NUL is read whole |
| `Request.SkipDelims` | multi-uni.c:82 | `strtok` skips a run of leading `:`; what remains is a suffix not starting with `:` |
| `Request.TokenLength` | multi-uni.c:82 | a token runs up to the next `:` or the end, and contains no `:` |
| `Request.Strtok` | multi-uni.c:82-85 | one `strtok` call yields a non-empty, delimiter-free token and a strictly shorter remainder, or nothing |
| `Request.StrtokTokens` | multi-uni.c:82-85 | successive `strtok` calls return exactly the non-empty `:`-separated fields, in order, and nothing once none are left |
| `Request.DigitPrefix` | multi-uni.c:87 | `atoi` reads the longest run of digits: a prefix of digits followed by a non-digit or the end |
| `Request.AtoiDecimal` | multi-uni.c:87 | `atoi` of the decimal text of `n` is `n` |
| `Request.Value` | multi-uni.c:87 | a run of `k` decimal digits denotes a number below 10^k |
| `Request.Atoi` | multi-uni.c:87 | `atoi` of a text of `k` characters lies strictly between -10^k and 10^k, and is 0 when the text holds no digit; its value in general is stated by `AtoiReads` |
| `Request.AtoiReads` | multi-uni.c:87 | `atoi` of white space, an optional `+` or `-`, a non-empty digit run (leading zeros allowed) and any text not starting with a digit is the digits' value, negated after `-`; the white space and the trailing text have no effect |
| `Request.PortOf` | multi-uni.c:87 | the stored port is `ntohs((uint16_t)atoi(token))`: converting it back with `htons` gives the client's number reduced modulo 2^16 |
| `Request.Classify` | multi-uni.c:91-100 | the first token selects JOIN exactly when it is `"JOIN"`, LEAVE exactly when it is `"LEAVE"`, otherwise unknown, carrying the port |
| `Request.Decode` | multi-uni.c:82-102 | a buffer is malformed exactly when fewer than two `:`-separated tokens precede its first NUL; otherwise the first token is the verb, the second is the port, and later tokens are ignored |
| `Request.DecodeEncode` | multi-uni.c:82-91 | `"<VERB>:<n>"` decodes to that verb with port `ntohs((uint16_t)n)` |
| `Request.DecodeLineEnd` | multi-uni.c:82-91 | `"<VERB>:<n>\n"`, a request ending in a line break, decodes like `"<VERB>:<n>"`: to that verb with port `ntohs((uint16_t)n)` |
| `Registry.Matches` | multi-uni.c:48-49 | an entry matches a LEAVE when its address octets and its stored port equal the request's; `sin6_port` and `sin6_scope_id` are ignored (a predicate without its own contract; `FindFirst` states the scan over it) |
| `Registry.FindFirst` | multi-uni.c:44-49 | the scan returns the lowest index whose address octets and stored port both equal the arguments, or none exactly when no live entry matches |
| `Registry.SwapRemove` | multi-uni.c:50 | `a[i] = a[--n]` shrinks the live prefix by one, moves the last entry into slot `i`, leaves the other slots alone, and removes exactly one copy of the old `a[i]` from the multiset |
| `Registry.AfterAdd` | multi-uni.c:24-37 | an add keeps the count within 500 and adds exactly one copy of the client to the live multiset when there is room, none at capacity |
| `Registry.AfterRemove` | multi-uni.c:39-57 | a remove without a match changes nothing; with one it shrinks the count by one and takes exactly one copy of the first match out of the multiset |
| `Registry.Retarget` | multi-uni.c:61 | the rewrite makes `ntohs(sin6_port)` equal the stored port and changes neither the address, the scope nor the stored port |
| `Registry.Fanout` | multi-uni.c:59-64 | a forwarding pass makes exactly one send per live entry (`FanoutExact` gives each send) |
| `Registry.FanoutExact` | multi-uni.c:59-64 | a forwarding pass makes one send per live entry, in index order, to that entry's address with `sin6_port = htons(port)`, each carrying the identical payload |
| `Registry.RetargetAll` | multi-uni.c:60-61 | after the pass the live entries are the same entries in the same order, each with unchanged address octets and stored port and with `ntohs(sin6_port)` equal to its stored port |
| `Registry.RetargetAllIdempotent` | multi-uni.c:59-63 | a second pass rewrites nothing, so repeated passes leave the registry as the first one did |
| `Registry.RetargetKeepsMatches` | multi-uni.c:59-63 | a forwarding pass does not change which entry a later LEAVE finds |
| `Registry.RunStaysBounded` | multi-uni.c:24-57 | under any sequence of adds and removes the live count stays within 0..500 |
| `Registry.AddAtCapacity` | multi-uni.c:33-36 | at 500 entries an add leaves the registry unchanged |
| `Registry.DuplicateAdd` | multi-uni.c:24-32 | adding the same client twice yields two live copies of it |
| `Registry.AddThenRemove` | multi-uni.c:24-57 | after a successful add, removing the same address and port succeeds, restores the size, and takes out a matching entry: the new one or an older one with the same address and port |
| `Registry.AddThenRemoveRestores` | multi-uni.c:24-57 | when no entry matched before, add then remove restores the exact former sequence and a second remove finds nothing |
| `Registry.RemoveKeepsOthers` | multi-uni.c:50 | removing any one entry, last or not, keeps every other entry's send in the next pass |
| `Registry.SwapRemoveInPlace` | multi-uni.c:50 | the in-place assignment on the array's first `n` slots yields `SwapRemove` of that prefix |
| `Registry.ClientTable.constructor` | multi-uni.c:21-22 | the registry starts with a 500-slot array and no live entries |
| `Registry.ClientTable.Add` | multi-uni.c:24-37 | succeeds exactly when the count is below 500; then stores the client at index `num_clients` and counts it, touching no other slot; otherwise changes nothing |
| `Registry.ClientTable.Remove` | multi-uni.c:39-57 | succeeds exactly when a live entry matches; then overwrites the first match with the last live entry and decrements the count, touching no other slot; otherwise changes nothing |
| `Registry.ClientTable.Forward` | multi-uni.c:59-64 | its sends are exactly `Fanout` of the live entries; each live entry gets `sin6_port = htons(port)`; the count and the slots past it are unchanged |
| `Relay.Dispatch` | multi-uni.c:91-102 | only a malformed request gets no reply; every reply goes to the sender; only JOIN and LEAVE change the registry |
| `Relay.Respond` | multi-uni.c:70-105 | an empty datagram gets no reply and changes nothing; replies go only to the sender; the registry changes only for a decoded JOIN or LEAVE |
| `Relay.RespondByTokens` | multi-uni.c:78-102 | with fewer than two tokens there is no reply and no change; an unknown verb gets `"Uknown request\n"` and no change; JOIN adds and answers `"SUCCESSFULLY JOINED"`/`"FAILED TO JOIN"` by capacity; LEAVE removes and answers `"SUCCESSFULLY LEFT"`/`"FAILED TO LEAVE"` by whether a match exists |
| `Relay.FullBufferOverruns` | multi-uni.c:77-80 | a datagram of 1024 bytes or more reaches the out-of-bounds terminator store; the model answers nothing and changes nothing |
| `Relay.RespondEncoded` | multi-uni.c:77-102 | any `"<VERB>:<p>"` that fits the buffer is answered as the verb applied to port `ntohs((uint16_t)p)`, for every natural `p` |
| `Relay.EncodedFits` | multi-uni.c:73-77 | a verb of up to 8 characters with a port below 65536 always fits the 1024-byte buffer |
| `Relay.JoinRequest` | multi-uni.c:91-94 | `"JOIN:<p>"` records the sender with port `ntohs((uint16_t)p)` and answers success, or answers failure at capacity and changes nothing |
| `Relay.LeaveRequest` | multi-uni.c:95-98 | `"LEAVE:<p>"` removes the sender's first entry with port `ntohs((uint16_t)p)` and answers success, or answers failure and changes nothing |
| `Relay.JoinThenLeave` | multi-uni.c:91-98 | JOIN then LEAVE from a new address and port both succeed and restore the registry; a further LEAVE fails |
| `Relay.UnknownVerb` | multi-uni.c:99-101 | any verb other than JOIN and LEAVE, with any number, whose request fits the 1024-byte buffer is answered `"Uknown request\n"` and changes nothing |
| `Relay.VerbWithoutPort` | multi-uni.c:83-86 | a lone verb without `:` or NUL gets no reply and changes nothing (`RespondByTokens` covers every datagram with fewer than two tokens) |
| `Relay.HandleRequest` | multi-uni.c:70-105 | on the array in place, returns the reply `Respond` gives and leaves the live entries that `Respond` gives |
| `Relay.Tick` | multi-uni.c:208-222 | without a control datagram: an empty or absent multicast datagram sends nothing and changes nothing, a non-empty one sends exactly `Fanout` of the registry and leaves `RetargetAll` of it; only a control datagram of at least 1024 bytes overruns |
| `Relay.TickComposes` | multi-uni.c:208-222 | with a control datagram, the iteration is the multicast part alone followed by `Respond` on the registry that part leaves, its reply appended to the sends |
| `Relay.JoinThenForward` | multi-uni.c:208-222 | a client whose JOIN completed receives the next non-empty multicast datagram byte for byte, as the last send of the pass, with raw `sin6_port` equal to its number reduced modulo 2^16 |
| `Relay.PassPrecedesRequest` | multi-uni.c:208-222 | within one iteration the forwarding pass runs over the registry as it was before that iteration's control datagram |
| `Relay.Step` | multi-uni.c:208-222 | on the table in place, the sends, new live entries and overrun flag are those of `Tick` |

## Left out

- Socket setup and the rest of `main` are not modelled: `create_socket`, `bind_socket`, `join_multicast_group`, `get_interface_index`, `setup_sockaddr_in6`, argument parsing and `select` itself. They are calls into the operating system. The readiness `select` reports is the `Ready` parameter of `Step`.
- `recvfrom` and `sendto` are not called. A received datagram is a parameter, and each send is a `Send` record in the returned sequence. A `recvfrom` error (a negative length) is not modelled separately; it takes the same path as an empty datagram.
- A failing `sendto` is not modelled. The source ignores its result, so a failure does not stop the pass.
- `inet_ntop`, `inet_pton` and all `printf`/`fprintf` logging are left out. They are text conversion and diagnostic output.
- `Request.Atoi`: C's `atoi` has undefined behaviour when the digits overflow `int`. The model keeps the unbounded value, and `Cast16` reduces it modulo 2^16.
- `Wire.Swap16`: a big-endian host, where `htons` is the identity, is not modelled.
- `sin6_family` and `sin6_flowinfo` are not modelled. The relay copies them with the address and never reads them.
- `SockAddr.ip` is not constrained to 16 octets, since the model only compares it for equality.
- uni-multi.c and multiperf-server.go are not part of this model. They are a stateless unicast-to-multicast pass-through and a throughput timer made of socket I/O, clocks and floating point.
- The control datagram is modelled as a `string` of characters and the multicast payload as octets. Every control byte corresponds to the character with the same code, so byte-range input loses nothing. Characters above 255 have no counterpart in the program.
- Concurrency is not modelled. The program is single-threaded, so each loop iteration is atomic.

=== FILE: registry.dfy ===
/** The subscriber registry: the array `client_addresses[MAX_CLIENTS]` with its
    live prefix of `num_clients` entries, `add_client`, `remove_client`
    (first match, overwritten by the last live entry) and the forwarding pass
    `forward_packet`. The functions on `seq<Client>` specify the methods of
    `ClientTable`, which work on the array in place. */
module Registry {
  import opened Wire

  /** MAX_CLIENTS */
  const MAX_CLIENTS: nat := 500

  /** One `client_info` record: the requester's socket address and the port
      value handed to `add_client`. */
  datatype Client = Client(addr: SockAddr, port: u16)

  /** The test `remove_client` applies to an entry: the same address octets
      and the same stored port, with no byte-order conversion. The entry's
      `sin6_port` and `sin6_scope_id` take no part. */
  predicate Matches(c: Client, ip: seq<byte>, port: u16)
  {
    c.addr.ip == ip && c.port == port
  }

  /** The first index whose entry matches, if any. */
  function FindFirst(live: seq<Client>, ip: seq<byte>, port: u16): (r: Option<nat>)
    ensures r.Some? ==> r.value < |live| && Matches(live[r.value], ip, port)
    ensures r.Some? ==> forall j :: 0 <= j < r.value ==> !Matches(live[j], ip, port)
    ensures r.None? <==> forall j :: 0 <= j < |live| ==> !Matches(live[j], ip, port)
  {
    if live == [] then None
    else if Matches(live[0], ip, port) then Some(0)
    else match FindFirst(live[1..], ip, port)
      case None => None
      case Some(i) => Some(i + 1)
  }

  /** Removal of index `i` by `a[i] = a[--n]`: the last live entry moves into
      slot `i`, every other slot keeps its entry, and exactly one copy of the
      removed entry leaves the multiset. */
  function SwapRemove(live: seq<Client>, i: nat): (r: seq<Client>)
    requires i < |live|
    ensures |r| == |live| - 1
    ensures forall j :: 0 <= j < |r| && j != i ==> r[j] == live[j]
    ensures i < |r| ==> r[i] == live[|live| - 1]
    ensures multiset(r) == multiset(live) - multiset{live[i]}
  {
    var last := |live| - 1;
    assert live == live[..last] + [live[last]];
    if i == last then live[..last] else live[..last][i := live[last]]
  }

  /** The registry after `add_client(c.addr, c.port)`: appended when there is
      room, unchanged at capacity. Duplicates are not looked for. */
  function AfterAdd(live: seq<Client>, c: Client): (r: seq<Client>)
    ensures |live| <= MAX_CLIENTS ==> |r| <= MAX_CLIENTS
    ensures multiset(r) == if |live| < MAX_CLIENTS then multiset(live) + multiset{c} else multiset(live)
  {
    if |live| < MAX_CLIENTS then live + [c] else live
  }

  /** The registry after `remove_client(addr, port)` with `addr.sin6_addr == ip`. */
  function AfterRemove(live: seq<Client>, ip: seq<byte>, port: u16): (r: seq<Client>)
    ensures FindFirst(live, ip, port).None? ==> r == live
    ensures FindFirst(live, ip, port).Some? ==>
      |r| == |live| - 1 &&
      multiset(r) == multiset(live) - multiset{live[FindFirst(live, ip, port).value]}
  {
    match FindFirst(live, ip, port)
    case None => live
    case Some(i) => SwapRemove(live, i)
  }

  /** The rewrite `forward_packet` applies before each send:
      `sin6_port = htons(port)`. Afterwards `ntohs(sin6_port)` is the stored
      port, and nothing else in the entry differs. */
  function Retarget(c: Client): (r: Client)
    ensures r.port == c.port && r.addr.ip == c.addr.ip && r.addr.scopeId == c.addr.scopeId
    ensures Swap16(r.addr.sinPort) == c.port
  {
    SwapInvolution(c.port);
    c.(addr := c.addr.(sinPort := Swap16(c.port)))
  }

  /** The sends of one forwarding pass over `live`, in index order. */
  function Fanout(live: seq<Client>, payload: seq<byte>): (sent: seq<Send>)
    ensures |sent| == |live|
  {
    if live == [] then []
    else Fanout(live[..|live| - 1], payload) + [Forwarded(Retarget(live[|live| - 1]).addr, payload)]
  }

  /** A forwarding pass sends once to every live entry, in index order, to
      that entry's address with `sin6_port == htons(port)`, and always the
      identical payload. */
  lemma {:induction false} FanoutExact(live: seq<Client>, payload: seq<byte>)
    ensures forall i :: 0 <= i < |live| ==>
      Fanout(live, payload)[i] == Forwarded(live[i].addr.(sinPort := Swap16(live[i].port)), payload)
  {
    if live != [] {
      var init := live[..|live| - 1];
      FanoutExact(init, payload);
      assert forall i :: 0 <= i < |init| ==> init[i] == live[i];
    }
  }

  /** The entries after a forwarding pass: the same entries in the same
      order, each with `ntohs(sin6_port)` now equal to its stored port and
      its address octets and stored port untouched. */
  function RetargetAll(live: seq<Client>): (r: seq<Client>)
    ensures |r| == |live|
    ensures forall i :: 0 <= i < |live| ==> r[i] == Retarget(live[i])
    ensures forall i :: 0 <= i < |live| ==>
      r[i].addr.ip == live[i].addr.ip && r[i].port == live[i].port && Swap16(r[i].addr.sinPort) == r[i].port
  {
    seq(|live|, i requires 0 <= i < |live| => Retarget(live[i]))
  }

  /** A second pass rewrites nothing: the rewrite depends only on the stored
      port, which the pass leaves alone. */
  lemma RetargetAllIdempotent(live: seq<Client>)
    ensures RetargetAll(RetargetAll(live)) == RetargetAll(live)
  {
    var r := RetargetAll(live);
    assert forall i :: 0 <= i < |r| ==> Retarget(r[i]) == r[i];
  }

  /** A forwarding pass does not change which entry a later LEAVE finds. */
  lemma RetargetKeepsMatches(live: seq<Client>, ip: seq<byte>, port: u16)
    ensures FindFirst(RetargetAll(live), ip, port) == FindFirst(live, ip, port)
  {
    var r := RetargetAll(live);
    assert forall j :: 0 <= j < |live| ==> (Matches(r[j], ip, port) <==> Matches(live[j], ip, port));
  }

  // ---------------------------------------------------------------------
  // Sequences of registry calls

  /** One call into the registry from the request handler. */
  datatype Op = AddOp(client: Client) | RemoveOp(ip: seq<byte>, port: u16)

  function Apply(live: seq<Client>, op: Op): seq<Client>
  {
    match op
    case AddOp(c) => AfterAdd(live, c)
    case RemoveOp(ip, port) => AfterRemove(live, ip, port)
  }

  function Run(live: seq<Client>, ops: seq<Op>): seq<Client>
    decreases |ops|
  {
    if ops == [] then live else Run(Apply(live, ops[0]), ops[1..])
  }

  /** `num_clients` stays within 0..MAX_CLIENTS under any sequence of calls. */
  lemma {:induction false} RunStaysBounded(live: seq<Client>, ops: seq<Op>)
    requires |live| <= MAX_CLIENTS
    ensures |Run(live, ops)| <= MAX_CLIENTS
    decreases |ops|
  {
    if ops != [] {
      RunStaysBounded(Apply(live, ops[0]), ops[1..]);
    }
  }

  /** At capacity a JOIN is refused and the registry does not change. */
  lemma AddAtCapacity(live: seq<Client>, c: Client)
    requires |live| == MAX_CLIENTS
    ensures AfterAdd(live, c) == live
  {
  }

  /** Adding the same client twice gives two live entries for it. */
  lemma DuplicateAdd(live: seq<Client>, c: Client)
    requires |live| + 2 <= MAX_CLIENTS
    ensures multiset(AfterAdd(AfterAdd(live, c), c))[c] == multiset(live)[c] + 2
    ensures |AfterAdd(AfterAdd(live, c), c)| == |live| + 2
  {
  }

  /** Join then leave: the LEAVE always succeeds, the size comes back, and the
      entry that leaves is the first one with the same address and port —
      the new one, or an older entry that differs from it at most in fields
      the match ignores. */
  lemma AddThenRemove(live: seq<Client>, c: Client)
    requires |live| < MAX_CLIENTS
    ensures var added := AfterAdd(live, c);
      var found := FindFirst(added, c.addr.ip, c.port);
      found.Some? && Matches(added[found.value], c.addr.ip, c.port) &&
      |AfterRemove(added, c.addr.ip, c.port)| == |live| &&
      multiset(AfterRemove(added, c.addr.ip, c.port)) + multiset{added[found.value]}
        == multiset(live) + multiset{c}
  {
    var added := AfterAdd(live, c);
    assert added[|live|] == c;
    assert Matches(added[|live|], c.addr.ip, c.port);
  }

  /** Join then leave when no entry had that address and port: the registry
      returns to exactly its former contents and order, and a second LEAVE
      fails. */
  lemma AddThenRemoveRestores(live: seq<Client>, c: Client)
    requires |live| < MAX_CLIENTS
    requires FindFirst(live, c.addr.ip, c.port).None?
    ensures AfterRemove(AfterAdd(live, c), c.addr.ip, c.port) == live
    ensures FindFirst(AfterRemove(AfterAdd(live, c), c.addr.ip, c.port), c.addr.ip, c.port).None?
  {
    var ip, port := c.addr.ip, c.port;
    var added := live + [c];
    assert AfterAdd(live, c) == added;
    var found := FindFirst(added, ip, port);
    assert found.Some? by {
      assert Matches(added[|live|], ip, port);
    }
    assert found.value == |live| by {
      assert forall j :: 0 <= j < |live| ==> added[j] == live[j];
    }
    assert AfterRemove(added, ip, port) == SwapRemove(added, |live|);
    assert added[..|live|] == live;
  }

  /** Removing one subscriber, wherever it sits, keeps every other
      subscriber in the next forwarding pass. */
  lemma RemoveKeepsOthers(live: seq<Client>, i: nat, j: nat, payload: seq<byte>)
    requires i < |live| && j < |live| && j != i
    ensures Fanout(live, payload)[j] in Fanout(SwapRemove(live, i), payload)
  {
    var r := SwapRemove(live, i);
    FanoutExact(live, payload);
    FanoutExact(r, payload);
    var k := if j == |live| - 1 then i else j;
    assert r[k] == live[j];
    assert Fanout(r, payload)[k] == Fanout(live, payload)[j];
  }

  /** `a[i] = a[--n]` on the first `n` slots of an array is `SwapRemove`. */
  lemma SwapRemoveInPlace(a: seq<Client>, n: nat, i: nat)
    requires i < n <= |a|
    ensures a[i := a[n - 1]][..n - 1] == SwapRemove(a[..n], i)
  {
    if i < n - 1 {
      assert a[i := a[n - 1]][..n - 1] == a[..n][..n - 1][i := a[n - 1]];
    } else {
      assert a[i := a[n - 1]][..n - 1] == a[..n][..n - 1];
    }
  }

  // ---------------------------------------------------------------------
  // The array in place

  /** `client_addresses` and `num_clients`. */
  class ClientTable {
    const slots: array<Client>
    var count: nat

    ghost predicate Valid()
      reads this
    {
      slots.Length == MAX_CLIENTS && count <= MAX_CLIENTS
    }

    /** The live entries, in index order. */
    ghost function Live(): (live: seq<Client>)
      requires Valid()
      reads this, slots
      ensures |live| == count
    {
      slots[..count]
    }

    /** The zero-initialised global array with `num_clients = 0`. */
    constructor ()
      ensures Valid() && fresh(slots)
      ensures Live() == []
    {
      slots := new Client[MAX_CLIENTS];
      count := 0;
    }

    /** `add_client`: store at index `num_clients` and count it, if there
        is room. */
    method Add(addr: SockAddr, port: u16) returns (ok: bool)
      requires Valid()
      modifies this, slots
      ensures Valid()
      ensures ok <==> old(count) < MAX_CLIENTS
      ensures Live() == AfterAdd(old(Live()), Client(addr, port))
      ensures slots[..] == if ok then old(slots[..])[old(count) := Client(addr, port)] else old(slots[..])
    {
      if count < MAX_CLIENTS {
        slots[count] := Client(addr, port);
        count := count + 1;
        ok := true;
      } else {
        ok := false;
      }
    }

    /** `remove_client`: scan the live entries from index 0; the first one
        with the same address and stored port is overwritten by the last live
        entry and the count drops by one. */
    method Remove(addr: SockAddr, port: u16) returns (ok: bool)
      requires Valid()
      modifies this, slots
      ensures Valid()
      ensures ok <==> FindFirst(old(Live()), addr.ip, port).Some?
      ensures Live() == AfterRemove(old(Live()), addr.ip, port)
      ensures ok ==> slots[..] == old(slots[..])[FindFirst(old(Live()), addr.ip, port).value := old(slots[count - 1])]
      ensures !ok ==> slots[..] == old(slots[..]) && count == old(count)
    {
      ghost var live := Live();
      ghost var before := slots[..];
      var i := 0;
      while i < count
        invariant 0 <= i <= count
        invariant forall j :: 0 <= j < i ==> !Matches(live[j], addr.ip, port)
      {
        if slots[i].addr.ip == addr.ip && slots[i].port == port {
          assert FindFirst(live, addr.ip, port) == Some(i);
          count := count - 1;
          slots[i] := slots[count];
          assert slots[..] == before[i := before[count]];
          SwapRemoveInPlace(before, |live|, i);
          assert Live() == SwapRemove(live, i);
          return true;
        }
        i := i + 1;
      }
      return false;
    }

    /** `forward_packet`: for every live entry in index order, set
        `sin6_port = htons(port)` and send the payload unchanged to it. */
    method Forward(payload: seq<byte>) returns (sent: seq<Send>)
      requires Valid()
      modifies slots
      ensures Valid()
      ensures sent == Fanout(old(Live()), payload)
      ensures Live() == RetargetAll(old(Live()))
      ensures forall j :: count <= j < slots.Length ==> slots[j] == old(slots[j])
    {
      ghost var live := Live();
      sent := [];
      var i := 0;
      while i < count
        invariant 0 <= i <= count
        invariant |sent| == i
        invariant forall j :: 0 <= j < i ==> sent[j] == Forwarded(Retarget(live[j]).addr, payload)
        invariant forall j :: 0 <= j < i ==> slots[j] == Retarget(old(slots[j]))
        invariant forall j :: i <= j < slots.Length ==> slots[j] == old(slots[j])
      {
        var c := slots[i];
        c := c.(addr := c.addr.(sinPort := Swap16(c.port)));
        slots[i] := c;
        sent := sent + [Forwarded(c.addr, payload)];
        assert c == Retarget(live[i]);
        i := i + 1;
      }
      FanoutExact(live, payload);
      assert forall j :: 0 <= j < count ==> Live()[j] == RetargetAll(live)[j];
    }
  }
}

=== FILE: relay.dfy ===
/** The relay's event loop (the body of the `select` loop in `main`): a
    multicast datagram is fanned out to every subscriber, and a control
    datagram is decoded and dispatched to the registry by
    `handle_join_leave_request`, which answers with a fixed text. */
module Relay {
  import opened Wire
  import opened Request
  import opened Registry

  // The reply texts of `send_response`, as the program writes them.
  const JOINED: string := "SUCCESSFULLY JOINED"
  const JOIN_FAILED: string := "FAILED TO JOIN"
  const LEFT: string := "SUCCESSFULLY LEFT"
  const LEAVE_FAILED: string := "FAILED TO LEAVE"
  const UNKNOWN_REQUEST: string := "Uknown request\n"

  /** What handling one control datagram produces. */
  datatype Handling =
    | NoReply
    | Reply(message: Send)
      /** `recvfrom` filled all BUFFER_SIZE bytes, so the terminator store
          `buffer[recv_len]` falls one past the buffer: undefined behaviour,
          made an explicit outcome here with no reply and no registry change. */
    | Overrun

  datatype Response = Response(handling: Handling, live: seq<Client>)

  /** The dispatch on a decoded request: JOIN adds, LEAVE removes, each
      answered with its success or failure text; an unknown verb gets a
      fixed answer, and a malformed request none. */
  function Dispatch(live: seq<Client>, src: SockAddr, request: Command): (r: Response)
    ensures r.handling.Reply? <==> !request.Malformed?
    ensures r.handling.Reply? ==> r.handling.message.Replied? && r.handling.message.dest == src
    ensures r.live != live ==> request.Join? || request.Leave?
  {
    match request
    case Malformed => Response(NoReply, live)
    case Unknown => Response(Reply(Replied(src, UNKNOWN_REQUEST)), live)
    case Join(port) =>
      var ok := |live| < MAX_CLIENTS;
      Response(Reply(Replied(src, if ok then JOINED else JOIN_FAILED)), AfterAdd(live, Client(src, port)))
    case Leave(port) =>
      var ok := FindFirst(live, src.ip, port).Some?;
      Response(Reply(Replied(src, if ok then LEFT else LEAVE_FAILED)), AfterRemove(live, src.ip, port))
  }

  /** `handle_join_leave_request` on the registry `live` for a datagram from
      `src`: what it answers and what the registry becomes. An empty datagram
      is ignored. */
  function Respond(live: seq<Client>, src: SockAddr, datagram: string): (r: Response)
    ensures datagram == [] ==> r == Response(NoReply, live)
    ensures r.handling.Reply? ==> r.handling.message.Replied? && r.handling.message.dest == src
    ensures r.live != live ==> var q := Decode(Receive(datagram)); q.Join? || q.Leave?
  {
    var buffer := Receive(datagram);
    if |buffer| == 0 then Response(NoReply, live)
    else if |buffer| == BUFFER_SIZE then Response(Overrun, live)
    else Dispatch(live, src, Decode(buffer))
  }

  /** The handler in terms of the datagram's ':'-separated tokens: fewer than
      two tokens give no reply; an unknown verb gets the fixed reply; only
      JOIN and LEAVE touch the registry, with the second token as the port. */
  lemma RespondByTokens(live: seq<Client>, src: SockAddr, datagram: string)
    requires 0 < |Receive(datagram)| < BUFFER_SIZE
    ensures var ts := Tokens(CString(Receive(datagram)));
      var r := Respond(live, src, datagram);
      (|ts| < 2 ==> r == Response(NoReply, live)) &&
      (|ts| >= 2 && ts[0] != "JOIN" && ts[0] != "LEAVE" ==>
        r == Response(Reply(Replied(src, UNKNOWN_REQUEST)), live)) &&
      (|ts| >= 2 && ts[0] == "JOIN" ==>
        r == Response(Reply(Replied(src, if |live| < MAX_CLIENTS then JOINED else JOIN_FAILED)),
                      AfterAdd(live, Client(src, PortOf(ts[1]))))) &&
      (|ts| >= 2 && ts[0] == "LEAVE" ==>
        r == Response(Reply(Replied(src, if FindFirst(live, src.ip, PortOf(ts[1])).Some? then LEFT else LEAVE_FAILED)),
                      AfterRemove(live, src.ip, PortOf(ts[1]))))
  {
    var buffer := Receive(datagram);
    var ts := Tokens(CString(buffer));
    assert Respond(live, src, datagram) == Dispatch(live, src, Decode(buffer));
    if |ts| >= 2 {
      var port := PortOf(ts[1]);
      assert Decode(buffer) == Classify(ts[0], port);
      if ts[0] == "JOIN" {
        assert Decode(buffer) == Join(port);
      } else if ts[0] == "LEAVE" {
        assert Decode(buffer) == Leave(port);
      } else {
        assert Decode(buffer) == Unknown;
      }
    }
  }

  /** A datagram that fills the whole receive buffer reaches the out-of-bounds
      terminator store. */
  lemma FullBufferOverruns(live: seq<Client>, src: SockAddr, datagram: string)
    requires |datagram| >= BUFFER_SIZE
    ensures Respond(live, src, datagram) == Response(Overrun, live)
  {
  }

  /** A request "<VERB>:<PORT>" as a client writes it fits the buffer. */
  lemma EncodedFits(verb: string, port: nat)
    requires |verb| <= 8 && port < 0x1_0000
    ensures |Encode(verb, port)| < BUFFER_SIZE
  {
    DecimalLength(port, 5);
  }

  /** A request "<VERB>:<p>" that fits the buffer is answered as the dispatch
      of its verb with port `ntohs((uint16_t)p)`. */
  lemma RespondEncoded(live: seq<Client>, src: SockAddr, verb: string, p: nat)
    requires verb != [] && DELIM !in verb && '\0' !in verb && |Encode(verb, p)| < BUFFER_SIZE
    ensures Respond(live, src, Encode(verb, p)) == Dispatch(live, src, Classify(verb, Swap16(Cast16(p))))
  {
    assert Receive(Encode(verb, p)) == Encode(verb, p);
    DecodeEncode(verb, p);
  }

  /** "JOIN:<p>" from `src`: the client is recorded with the byte-swapped port
      and told so; at capacity it is refused and nothing changes. */
  lemma JoinRequest(live: seq<Client>, src: SockAddr, p: nat)
    requires |Encode("JOIN", p)| < BUFFER_SIZE
    ensures Respond(live, src, Encode("JOIN", p)) ==
      if |live| < MAX_CLIENTS
      then Response(Reply(Replied(src, JOINED)), live + [Client(src, Swap16(Cast16(p)))])
      else Response(Reply(Replied(src, JOIN_FAILED)), live)
  {
    RespondEncoded(live, src, "JOIN", p);
  }

  /** "LEAVE:<p>" from `src`: the first entry with that address and the
      byte-swapped port is removed and the client told so; without one the
      answer is a failure and nothing changes. */
  lemma LeaveRequest(live: seq<Client>, src: SockAddr, p: nat)
    requires |Encode("LEAVE", p)| < BUFFER_SIZE
    ensures var found := FindFirst(live, src.ip, Swap16(Cast16(p)));
      Respond(live, src, Encode("LEAVE", p)) ==
      if found.Some?
      then Response(Reply(Replied(src, LEFT)), SwapRemove(live, found.value))
      else Response(Reply(Replied(src, LEAVE_FAILED)), live)
  {
    RespondEncoded(live, src, "LEAVE", p);
  }

  /** JOIN then LEAVE with the same port from the same address, when no entry
      had them before: both succeed, the registry is back where it was, and
      a second LEAVE fails. */
  lemma JoinThenLeave(live: seq<Client>, src: SockAddr, p: nat)
    requires |Encode("LEAVE", p)| < BUFFER_SIZE && |live| < MAX_CLIENTS
    requires FindFirst(live, src.ip, Swap16(Cast16(p))).None?
    ensures var joined := Respond(live, src, Encode("JOIN", p));
      var left := Respond(joined.live, src, Encode("LEAVE", p));
      joined.handling == Reply(Replied(src, JOINED)) &&
      left == Response(Reply(Replied(src, LEFT)), live) &&
      Respond(left.live, src, Encode("LEAVE", p)) == Response(Reply(Replied(src, LEAVE_FAILED)), live)
  {
    var c := Client(src, Swap16(Cast16(p)));
    assert |Encode("JOIN", p)| < |Encode("LEAVE", p)|;
    JoinRequest(live, src, p);
    AddThenRemoveRestores(live, c);
    LeaveRequest(live + [c], src, p);
    LeaveRequest(live, src, p);
  }

  /** A verb other than JOIN and LEAVE, with any number, whose request fits
      the 1024-byte buffer gets the fixed reply and changes nothing. */
  lemma UnknownVerb(live: seq<Client>, src: SockAddr, verb: string, p: nat)
    requires verb != [] && DELIM !in verb && '\0' !in verb && |Encode(verb, p)| < BUFFER_SIZE
    requires verb != "JOIN" && verb != "LEAVE"
    ensures Respond(live, src, Encode(verb, p)) == Response(Reply(Replied(src, UNKNOWN_REQUEST)), live)
  {
    RespondEncoded(live, src, verb, p);
  }

  /** A verb without a port field gets no reply and changes nothing. */
  lemma VerbWithoutPort(live: seq<Client>, src: SockAddr, verb: string)
    requires verb != [] && DELIM !in verb && '\0' !in verb && |verb| < BUFFER_SIZE
    ensures Respond(live, src, verb) == Response(NoReply, live)
  {
    assert Receive(verb) == verb;
    assert Respond(live, src, verb) == Dispatch(live, src, Decode(verb));
    CStringWithoutNul(verb);
    StrtokWhole(verb);
    assert Strtok([]) == None;
    assert Decode(verb) == Malformed;
  }

  /** `handle_join_leave_request` on the table in place. */
  method HandleRequest(table: ClientTable, src: SockAddr, datagram: string) returns (h: Handling)
    requires table.Valid()
    modifies table, table.slots
    ensures table.Valid()
    ensures Response(h, table.Live()) == Respond(old(table.Live()), src, datagram)
  {
    ghost var live := table.Live();
    var buffer := Receive(datagram);
    if |buffer| == 0 {
      return NoReply;
    }
    if |buffer| == BUFFER_SIZE {
      return Overrun;
    }
    var request := Decode(buffer);
    assert Respond(live, src, datagram) == Dispatch(live, src, request);
    match request
    case Malformed =>
      h := NoReply;
    case Join(port) =>
      var ok := table.Add(src, port);
      h := Reply(Replied(src, if ok then JOINED else JOIN_FAILED));
    case Leave(port) =>
      var ok := table.Remove(src, port);
      h := Reply(Replied(src, if ok then LEFT else LEAVE_FAILED));
    case Unknown =>
      h := Reply(Replied(src, UNKNOWN_REQUEST));
  }

  // ---------------------------------------------------------------------
  // One iteration of the select loop

  /** The sockets `select` reported readable, each with the datagram it holds:
      the multicast socket, and the request socket with the sender's address. */
  datatype Ready = Ready(multicast: Option<seq<byte>>, control: Option<(SockAddr, string)>)

  datatype Outcome = Outcome(sent: seq<Send>, live: seq<Client>, overrun: bool)

  /** One loop iteration: the multicast socket first (a non-empty datagram is
      forwarded), then the request socket. */
  function Tick(live: seq<Client>, ready: Ready): (o: Outcome)
    ensures o.overrun ==> ready.control.Some? && |ready.control.value.1| >= BUFFER_SIZE
    ensures ready.control.None? && (ready.multicast.None? || ready.multicast.value == []) ==>
      o == Outcome([], live, false)
    ensures ready.control.None? && ready.multicast.Some? && ready.multicast.value != [] ==>
      o == Outcome(Fanout(live, Receive(ready.multicast.value)), RetargetAll(live), false)
  {
    var pass :=
      if ready.multicast.Some? && ready.multicast.value != []
      then Outcome(Fanout(live, Receive(ready.multicast.value)), RetargetAll(live), false)
      else Outcome([], live, false);
    if ready.control.None? then pass
    else
      var r := Respond(pass.live, ready.control.value.0, ready.control.value.1);
      Outcome(pass.sent + (if r.handling.Reply? then [r.handling.message] else []), r.live, r.handling.Overrun?)
  }

  /** A client whose JOIN completes in one iteration receives the next
      multicast datagram, byte for byte, at its address with `sin6_port` equal
      to the number it wrote, reduced modulo 2^16. */
  lemma JoinThenForward(live: seq<Client>, src: SockAddr, p: nat, datagram: seq<byte>)
    requires |Encode("JOIN", p)| < BUFFER_SIZE && |live| < MAX_CLIENTS && datagram != []
    ensures var joined := Tick(live, Ready(None, Some((src, Encode("JOIN", p)))));
      var pass := Tick(joined.live, Ready(Some(datagram), None));
      joined.sent == [Replied(src, JOINED)] &&
      |pass.sent| == |live| + 1 &&
      pass.sent[|live|] == Forwarded(src.(sinPort := Cast16(p)), Receive(datagram))
  {
    var joined := live + [Client(src, Swap16(Cast16(p)))];
    JoinRequest(live, src, p);
    var ready := Ready(None, Some((src, Encode("JOIN", p))));
    var r := Respond(live, src, Encode("JOIN", p));
    assert r == Response(Reply(Replied(src, JOINED)), joined);
    assert Tick(live, ready.(control := None)) == Outcome([], live, false);
    TickComposes(live, ready);
    assert Tick(live, ready) == Outcome([Replied(src, JOINED)], joined, false);
    var payload := Receive(datagram);
    assert Tick(joined, Ready(Some(datagram), None)).sent == Fanout(joined, payload);
    FanoutExact(joined, payload);
    SwapInvolution(Cast16(p));
    assert joined[|live|] == Client(src, Swap16(Cast16(p)));
    assert Fanout(joined, payload)[|live|] == Forwarded(src.(sinPort := Cast16(p)), payload);
  }

  /** With a control datagram, the iteration is the multicast part alone
      followed by the request handler on the registry that part leaves. */
  lemma TickComposes(live: seq<Client>, ready: Ready)
    requires ready.control.Some?
    ensures var pass := Tick(live, ready.(control := None));
      var r := Respond(pass.live, ready.control.value.0, ready.control.value.1);
      Tick(live, ready) ==
        Outcome(pass.sent + (if r.handling.Reply? then [r.handling.message] else []), r.live, r.handling.Overrun?)
  {
  }

  /** Within one iteration the pass runs before the request is handled, so a
      JOIN read in the same iteration is not part of that pass. */
  lemma PassPrecedesRequest(live: seq<Client>, datagram: seq<byte>, src: SockAddr, request: string)
    requires datagram != []
    ensures Tick(live, Ready(Some(datagram), Some((src, request)))).sent[..|live|] == Fanout(live, Receive(datagram))
  {
  }

  /** The loop body on the table in place. */
  method Step(table: ClientTable, ready: Ready) returns (sent: seq<Send>, overrun: bool)
    requires table.Valid()
    modifies table, table.slots
    ensures table.Valid()
    ensures Outcome(sent, table.Live(), overrun) == Tick(old(table.Live()), ready)
  {
    sent, overrun := [], false;
    if ready.multicast.Some? {
      var payload := Receive(ready.multicast.value);
      if |payload| > 0 {
        sent := table.Forward(payload);
      }
    }
    if ready.control.Some? {
      var (src, d) := ready.control.value;
      var h := HandleRequest(table, src, d);
      if h.Reply? {
        sent := sent + [h.message];
      }
      overrun := h.Overrun?;
    }
  }
}

=== FILE: request.dfy ===
/** Decoding of a JOIN/LEAVE control datagram (`handle_join_leave_request`):
    the text is split with `strtok(·, ":")`, the second token is read with
    `atoi`, cast to `uint16_t` and passed through `ntohs`, and the first token
    selects the verb. */
module Request {
  import opened Wire

  const DELIM: char := ':'

  /** What one control datagram asks for. */
  datatype Command = Join(port: u16) | Leave(port: u16) | Unknown | Malformed

  // ---------------------------------------------------------------------
  // strtok(·, ":")

  /** `strtok` first skips the delimiters in front of a token. */
  function SkipDelims(s: string): (r: string)
    ensures |r| <= |s| && r == s[|s| - |r|..]
    ensures forall i :: 0 <= i < |s| - |r| ==> s[i] == DELIM
    ensures r == [] || r[0] != DELIM
  {
    if s != [] && s[0] == DELIM then SkipDelims(s[1..]) else s
  }

  /** Length of the longest prefix free of delimiters (`strcspn(s, ":")`). */
  function TokenLength(s: string): (n: nat)
    ensures n <= |s|
    ensures DELIM !in s[..n]
    ensures n < |s| ==> s[n] == DELIM
  {
    if s == [] || s[0] == DELIM then 0 else 1 + TokenLength(s[1..])
  }

  /** One call of `strtok(s, ":")`: the next token, and the text the following
      call `strtok(NULL, ":")` resumes from (the token's delimiter is consumed).
      No token is left when only delimiters remain. */
  function Strtok(s: string): (r: Option<(string, string)>)
    ensures r.Some? ==> r.value.0 != [] && DELIM !in r.value.0
    ensures r.Some? ==> |r.value.1| < |s|
  {
    var t := SkipDelims(s);
    if t == [] then None
    else
      var n := TokenLength(t);
      Some((t[..n], if n < |t| then t[n + 1..] else []))
  }

  // A reference definition of tokens: split on every ':' and drop the empty
  // fields.

  /** The fields of `s` between ':' separators, empty fields included. */
  function Fields(s: string): (fs: seq<string>)
    ensures fs != []
  {
    if s == [] then [[]]
    else
      var rest := Fields(s[1..]);
      if s[0] == DELIM then [[]] + rest else [[s[0]] + rest[0]] + rest[1..]
  }

  function NonEmpty(fs: seq<string>): (ts: seq<string>)
  {
    if fs == [] then []
    else if fs[0] == [] then NonEmpty(fs[1..])
    else [fs[0]] + NonEmpty(fs[1..])
  }

  /** The tokens `strtok(·, ":")` returns one after the other. */
  function Tokens(s: string): seq<string>
  {
    NonEmpty(Fields(s))
  }

  lemma {:induction false} NonEmptyAppend(a: seq<string>, b: seq<string>)
    ensures NonEmpty(a + b) == NonEmpty(a) + NonEmpty(b)
  {
    if a == [] {
      assert a + b == b;
    } else {
      assert (a + b)[0] == a[0];
      assert (a + b)[1..] == a[1..] + b;
      NonEmptyAppend(a[1..], b);
    }
  }

  /** The first field is the delimiter-free prefix; the others are the fields
      after its delimiter. */
  lemma {:induction false} FieldsSplit(s: string)
    ensures var n := TokenLength(s);
      Fields(s) == [s[..n]] + (if n < |s| then Fields(s[n + 1..]) else [])
  {
    if s != [] && s[0] != DELIM {
      FieldsSplit(s[1..]);
      var n' := TokenLength(s[1..]);
      if n' < |s[1..]| {
        assert s[1..][n' + 1..] == s[n' + 2..];
      }
      assert [s[0]] + s[1..][..n'] == s[..n' + 1];
    }
  }

  lemma {:induction false} SkipDelimsKeepsTokens(s: string)
    ensures Tokens(SkipDelims(s)) == Tokens(s)
  {
    if s != [] && s[0] == DELIM {
      SkipDelimsKeepsTokens(s[1..]);
    }
  }

  /** The tokens of a text that starts with a token: that token, then the
      tokens after its delimiter. */
  lemma FirstToken(t: string)
    requires t != [] && t[0] != DELIM
    ensures var n := TokenLength(t);
      Tokens(t) == [t[..n]] + Tokens(if n < |t| then t[n + 1..] else [])
  {
    var n := TokenLength(t);
    var tail := if n < |t| then Fields(t[n + 1..]) else [];
    FieldsSplit(t);
    NonEmptyAppend([t[..n]], tail);
    assert NonEmpty([t[..n]]) == [t[..n]] by {
      assert t[..n] != [];
      assert [t[..n]][1..] == [];
    }
    if n == |t| {
      assert Tokens([]) == [] by {
        assert Fields([]) == [[]];
        assert NonEmpty([[]]) == NonEmpty([]);
      }
    }
  }

  /** `strtok` returns exactly the split-based tokens: no token when none is
      left, otherwise the first one, and the following calls see the rest. */
  lemma StrtokTokens(s: string)
    ensures Strtok(s).None? <==> Tokens(s) == []
    ensures Strtok(s).Some? ==> Tokens(s) == [Strtok(s).value.0] + Tokens(Strtok(s).value.1)
  {
    var t := SkipDelims(s);
    SkipDelimsKeepsTokens(s);
    if t == [] {
      assert Strtok(s) == None;
      assert Tokens(t) == [] by {
        assert Fields([]) == [[]];
        assert NonEmpty([[]]) == NonEmpty([]);
      }
    } else {
      var n := TokenLength(t);
      var rest := if n < |t| then t[n + 1..] else [];
      assert Strtok(s) == Some((t[..n], rest));
      FirstToken(t);
      assert Tokens(t) == [t[..n]] + Tokens(rest);
    }
  }

  // ---------------------------------------------------------------------
  // atoi

  /** The characters C's `isspace` accepts in the "C" locale. */
  predicate IsSpace(c: char)
  {
    c == ' ' || c == '\t' || c == '\n' || c == '\U{0B}' || c == '\U{0C}' || c == '\r'
  }

  predicate IsDigit(c: char)
  {
    '0' <= c <= '9'
  }

  function DigitValue(c: char): nat
    requires IsDigit(c)
  {
    c as int - '0' as int
  }

  function SkipSpaces(s: string): (r: string)
    ensures |r| <= |s| && r == s[|s| - |r|..]
    ensures r == [] || !IsSpace(r[0])
  {
    if s != [] && IsSpace(s[0]) then SkipSpaces(s[1..]) else s
  }

  /** The longest prefix of decimal digits. */
  function DigitPrefix(s: string): (d: string)
    ensures d <= s
    ensures forall i :: 0 <= i < |d| ==> IsDigit(d[i])
    ensures |d| < |s| ==> !IsDigit(s[|d|])
  {
    if s == [] || !IsDigit(s[0]) then [] else [s[0]] + DigitPrefix(s[1..])
  }

  /** The number a string of decimal digits denotes (most significant first). */
  function Value(d: string): (v: nat)
    requires forall i :: 0 <= i < |d| ==> IsDigit(d[i])
    ensures v < Pow10(|d|)
  {
    if d == [] then 0 else 10 * Value(d[..|d| - 1]) + DigitValue(d[|d| - 1])
  }

  /** The digit run `atoi` reads after the white space: past an optional
      sign, the longest run of digits. */
  function Magnitude(t: string): (d: string)
    ensures |d| <= |t|
    ensures forall i :: 0 <= i < |d| ==> IsDigit(d[i])
    ensures (forall i :: 0 <= i < |t| ==> !IsDigit(t[i])) ==> d == []
  {
    var k := if t != [] && (t[0] == '-' || t[0] == '+') then 1 else 0;
    var d := DigitPrefix(t[k..]);
    assert d != [] ==> t[k] == d[0];
    d
  }

  /** C's `atoi`: leading white space, an optional sign, then the longest run
      of digits; no digits gives 0. The value is not bounded to `int`. */
  function Atoi(s: string): (r: int)
    ensures -(Pow10(|s|) as int) < r < Pow10(|s|)
    ensures (forall i :: 0 <= i < |s| ==> !IsDigit(s[i])) ==> r == 0
  {
    var t := SkipSpaces(s);
    var d := Magnitude(t);
    assert forall i :: 0 <= i < |t| ==> t[i] == s[|s| - |t| + i];
    Pow10Monotone(|d|, |s|);
    if t != [] && t[0] == '-' then -(Value(d) as int) else Value(d)
  }

  lemma {:induction false} Pow10Monotone(a: nat, b: nat)
    requires a <= b
    ensures Pow10(a) <= Pow10(b)
  {
    if a < b {
      Pow10Monotone(a, b - 1);
    }
  }

  /** The decimal text of `n`, as a client writes its port. */
  function Decimal(n: nat): (d: string)
    ensures d != []
    ensures forall i :: 0 <= i < |d| ==> IsDigit(d[i])
  {
    var last := ('0' as int + n % 10) as char;
    if n < 10 then [last] else Decimal(n / 10) + [last]
  }

  function Pow10(k: nat): nat
  {
    if k == 0 then 1 else 10 * Pow10(k - 1)
  }

  /** A number below 10^k has at most k digits. */
  lemma {:induction false} DecimalLength(n: nat, k: nat)
    requires 0 < k && n < Pow10(k)
    ensures |Decimal(n)| <= k
  {
    if n >= 10 {
      assert k > 1;
      DecimalLength(n / 10, k - 1);
    }
  }

  lemma {:induction false} ValueOfDecimal(n: nat)
    ensures Value(Decimal(n)) == n
  {
    if n >= 10 {
      ValueOfDecimal(n / 10);
      var d := Decimal(n);
      assert d[..|d| - 1] == Decimal(n / 10);
    }
  }

  lemma {:induction false} DigitPrefixOfDigits(d: string)
    requires forall i :: 0 <= i < |d| ==> IsDigit(d[i])
    ensures DigitPrefix(d) == d
  {
    if d != [] {
      DigitPrefixOfDigits(d[1..]);
    }
  }

  /** On a string of digits `atoi` is the value of all of it. */
  lemma AtoiOfDigits(d: string)
    requires d != [] && forall i :: 0 <= i < |d| ==> IsDigit(d[i])
    ensures Atoi(d) == Value(d)
  {
    assert !IsSpace(d[0]) && d[0] != '-' && d[0] != '+';
    assert SkipSpaces(d) == d;
    assert d[0..] == d;
    DigitPrefixOfDigits(d);
    assert Magnitude(d) == d;
  }

  lemma {:induction false} SkipSpacesThen(ws: string, t: string)
    requires forall i :: 0 <= i < |ws| ==> IsSpace(ws[i])
    requires t == [] || !IsSpace(t[0])
    ensures SkipSpaces(ws + t) == t
  {
    if ws != [] {
      assert (ws + t)[1..] == ws[1..] + t;
      SkipSpacesThen(ws[1..], t);
    } else {
      assert ws + t == t;
    }
  }

  lemma {:induction false} DigitPrefixThen(d: string, rest: string)
    requires forall i :: 0 <= i < |d| ==> IsDigit(d[i])
    requires rest == [] || !IsDigit(rest[0])
    ensures DigitPrefix(d + rest) == d
  {
    if d != [] {
      assert (d + rest)[1..] == d[1..] + rest;
      DigitPrefixThen(d[1..], rest);
    } else {
      assert d + rest == rest;
    }
  }

  /** After an optional sign, `atoi` reads exactly the run of digits. */
  lemma MagnitudeOf(sign: string, d: string, rest: string)
    requires sign == [] || sign == "+" || sign == "-"
    requires d != [] && forall i :: 0 <= i < |d| ==> IsDigit(d[i])
    requires rest == [] || !IsDigit(rest[0])
    ensures Magnitude(sign + (d + rest)) == d
  {
    var t := sign + (d + rest);
    assert t[0] == if sign == [] then d[0] else sign[0];
    var k := if t != [] && (t[0] == '-' || t[0] == '+') then 1 else 0;
    assert k == |sign|;
    assert t[k..] == d + rest;
    DigitPrefixThen(d, rest);
    assert DigitPrefix(t[k..]) == d;
  }

  /** `atoi` once the white space is skipped (`t`) and the digit run after the
      sign is found (`d`): the digits' value, negated after a minus sign. */
  lemma AtoiFrom(s: string, t: string, d: string)
    requires SkipSpaces(s) == t && Magnitude(t) == d
    ensures Atoi(s) == if t != [] && t[0] == '-' then -(Value(d) as int) else Value(d)
  {
  }

  /** A signed digit run starts with a character that is not white space,
      and with a minus exactly when the sign is one. */
  lemma SignedStart(sign: string, d: string, rest: string)
    requires sign == [] || sign == "+" || sign == "-"
    requires d != [] && IsDigit(d[0])
    ensures var t := sign + (d + rest);
      t != [] && !IsSpace(t[0]) && (t[0] == '-' <==> sign == "-")
  {
    var t := sign + (d + rest);
    assert t[0] == if sign == [] then d[0] else sign[0];
  }

  /** `atoi` on white space, an optional sign, a non-empty run of digits
      (leading zeros allowed) and anything that does not start with a digit:
      the signed value of the digits, the rest ignored. */
  lemma AtoiReads(ws: string, sign: string, d: string, rest: string)
    requires forall i :: 0 <= i < |ws| ==> IsSpace(ws[i])
    requires sign == [] || sign == "+" || sign == "-"
    requires d != [] && forall i :: 0 <= i < |d| ==> IsDigit(d[i])
    requires rest == [] || !IsDigit(rest[0])
    ensures Atoi(ws + (sign + (d + rest))) == if sign == "-" then -(Value(d) as int) else Value(d)
  {
    var t := sign + (d + rest);
    SignedStart(sign, d, rest);
    SkipSpacesThen(ws, t);
    MagnitudeOf(sign, d, rest);
    AtoiFrom(ws + t, t, d);
  }

  /** `atoi` reads back the decimal text of any natural number. */
  lemma AtoiDecimal(n: nat)
    ensures Atoi(Decimal(n)) == n
  {
    AtoiOfDigits(Decimal(n));
    ValueOfDecimal(n);
  }

  // ---------------------------------------------------------------------
  // The request

  /** The port field as the relay stores it: `ntohs((uint16_t)atoi(token))`. */
  function PortOf(token: string): (r: u16)
    ensures Swap16(r) == Cast16(Atoi(token))
  {
    SwapInvolution(Cast16(Atoi(token)));
    Swap16(Cast16(Atoi(token)))
  }

  /** The verb dispatch on the first token (`strcmp` against "JOIN", "LEAVE"). */
  function Classify(cmd: string, port: u16): (r: Command)
    ensures r.Join? <==> cmd == "JOIN"
    ensures r.Leave? <==> cmd == "LEAVE"
    ensures r.Join? || r.Leave? ==> r.port == port
    ensures !r.Malformed?
  {
    if cmd == "JOIN" then Join(port)
    else if cmd == "LEAVE" then Leave(port)
    else Unknown
  }

  /** The request a received control buffer carries, by two `strtok` calls.
      In terms of the split-based tokens: malformed exactly when fewer than two
      tokens precede the first NUL; otherwise the first token is the verb and
      the second the port, and any further tokens are ignored. */
  function Decode(buffer: string): (r: Command)
    ensures var ts := Tokens(CString(buffer));
      r == if |ts| < 2 then Malformed else Classify(ts[0], PortOf(ts[1]))
  {
    var s := CString(buffer);
    StrtokTokens(s);
    match Strtok(s)
    case None => Malformed
    case Some((cmd, rest)) =>
      StrtokTokens(rest);
      match Strtok(rest)
      case None => Malformed
      case Some((arg, _)) => Classify(cmd, PortOf(arg))
  }

  /** The control text a subscriber sends: "<VERB>:<PORT>". */
  function Encode(verb: string, port: nat): string
  {
    verb + [DELIM] + Decimal(port)
  }

  /** `strtok` on "<VERB>:<rest>" returns the verb and resumes at the rest. */
  lemma StrtokVerb(verb: string, rest: string)
    requires verb != [] && DELIM !in verb
    ensures Strtok(verb + [DELIM] + rest) == Some((verb, rest))
  {
    var s := verb + [DELIM] + rest;
    assert SkipDelims(s) == s;
    assert s == verb + ([DELIM] + rest);
    TokenLengthOfPrefix(verb, [DELIM] + rest);
    assert s[..|verb|] == verb;
    assert s[|verb| + 1..] == rest;
  }

  /** `strtok` on a text without delimiters returns all of it and leaves nothing. */
  lemma StrtokWhole(t: string)
    requires t != [] && DELIM !in t
    ensures Strtok(t) == Some((t, []))
  {
    assert SkipDelims(t) == t;
    assert t + [] == t;
    TokenLengthOfPrefix(t, []);
    assert t[..|t|] == t;
  }

  /** A request written as "<VERB>:<PORT>" is decoded to that verb and to the
      port in the byte order the relay stores. */
  lemma DecodeEncode(verb: string, port: nat)
    requires verb != [] && DELIM !in verb && '\0' !in verb
    ensures Decode(Encode(verb, port)) == Classify(verb, Swap16(Cast16(port)))
  {
    var d := Decimal(port);
    var s := Encode(verb, port);
    assert forall i :: 0 <= i < |d| ==> d[i] != '\0' && d[i] != DELIM;
    assert '\0' !in s;
    CStringWithoutNul(s);
    StrtokVerb(verb, d);
    StrtokWhole(d);
    AtoiDecimal(port);
  }

  /** A port field followed by a line break is one token, and `atoi` stops at
      the line break. */
  lemma PortLineEnd(port: nat)
    ensures var f := Decimal(port) + "\n";
      DELIM !in f && '\0' !in f && Strtok(f) == Some((f, [])) && PortOf(f) == Swap16(Cast16(port))
  {
    var d := Decimal(port);
    var f := d + "\n";
    assert forall i :: 0 <= i < |f| ==> f[i] != '\0' && f[i] != DELIM;
    StrtokWhole(f);
    AtoiReads([], [], d, "\n");
    assert [] + ([] + (d + "\n")) == f;
    ValueOfDecimal(port);
  }

  /** A request ending in a line break, "<VERB>:<PORT>\n" as a shell's `echo`
      sends it, decodes as the same request without it: `atoi` stops at the
      line break. */
  lemma DecodeLineEnd(verb: string, port: nat)
    requires verb != [] && DELIM !in verb && '\0' !in verb
    ensures Decode(verb + [DELIM] + (Decimal(port) + "\n")) == Classify(verb, Swap16(Cast16(port)))
  {
    var f := Decimal(port) + "\n";
    var s := verb + [DELIM] + f;
    PortLineEnd(port);
    assert '\0' !in s;
    CStringWithoutNul(s);
    StrtokVerb(verb, f);
  }

  lemma {:induction false} TokenLengthOfPrefix(a: string, b: string)
    requires DELIM !in a
    requires b == [] || b[0] == DELIM
    ensures TokenLength(a + b) == |a|
  {
    if a != [] {
      assert (a + b)[1..] == a[1..] + b;
      TokenLengthOfPrefix(a[1..], b);
    }
  }
}

=== FILE: wire.dfy ===
/** Wire-level values of the relay: octets, 16-bit port numbers in either
    byte order, IPv6 socket addresses, the fixed-size receive buffer, and
    the datagrams the relay sends. */
module Wire {

  datatype Option<+T> = None | Some(value: T)

  newtype byte = x: int | 0 <= x < 0x100

  /** A C `uint16_t`. */
  newtype u16 = x: int | 0 <= x < 0x1_0000

  /** Size of every receive buffer (BUFFER_SIZE). */
  const BUFFER_SIZE: nat := 1024

  /** `htons` and `ntohs` on a little-endian host: the two octets change places. */
  function Swap16(x: u16): (r: u16)
    ensures r as int / 0x100 == x as int % 0x100
    ensures r as int % 0x100 == x as int / 0x100
  {
    ((x as int % 0x100) * 0x100 + x as int / 0x100) as u16
  }

  /** Swapping twice gives the value back, so `htons(ntohs(p)) == p`. */
  lemma SwapInvolution(x: u16)
    ensures Swap16(Swap16(x)) == x
  {
    var y := Swap16(x);
    var z := Swap16(y);
    assert z as int / 0x100 == x as int / 0x100;
    assert z as int % 0x100 == x as int % 0x100;
    assert z as int == (z as int / 0x100) * 0x100 + z as int % 0x100;
    assert x as int == (x as int / 0x100) * 0x100 + x as int % 0x100;
  }

  /** The C conversion `(uint16_t)v` of an `int`: reduction modulo 2^16. */
  function Cast16(v: int): (r: u16)
    ensures (v - r as int) % 0x1_0000 == 0
    ensures 0 <= v < 0x1_0000 ==> r as int == v
  {
    (v % 0x1_0000) as u16
  }

  /** The part of a datagram that `recvfrom` stores into a BUFFER_SIZE buffer:
      a longer datagram is truncated, a shorter one is taken whole. */
  function Receive<T>(datagram: seq<T>): (r: seq<T>)
    ensures |r| <= BUFFER_SIZE
    ensures r <= datagram
    ensures |r| < BUFFER_SIZE ==> r == datagram
  {
    if |datagram| <= BUFFER_SIZE then datagram else datagram[..BUFFER_SIZE]
  }

  /** The C string a NUL-terminated character buffer holds: everything before
      the first NUL (string functions such as `strtok` stop there). */
  function CString(s: string): (r: string)
    ensures r <= s
    ensures '\0' !in r
    ensures |r| < |s| ==> s[|r|] == '\0'
  {
    if s == [] || s[0] == '\0' then [] else [s[0]] + CString(s[1..])
  }

  /** A buffer without NUL is read whole as a C string. */
  lemma {:induction false} CStringWithoutNul(s: string)
    requires '\0' !in s
    ensures CString(s) == s
  {
    if s != [] {
      CStringWithoutNul(s[1..]);
    }
  }

  /** The fields of a `struct sockaddr_in6` that the relay reads or writes:
      the octets of `sin6_addr`, `sin6_port` (network byte order) and
      `sin6_scope_id`. */
  datatype SockAddr = SockAddr(ip: seq<byte>, sinPort: u16, scopeId: nat)

  /** One `sendto` call: on the multicast socket towards a subscriber, or a
      text reply on the request socket. */
  datatype Send =
    | Forwarded(dest: SockAddr, payload: seq<byte>)
    | Replied(dest: SockAddr, text: string)
}
